=== FILE: README.md ===
# Texture export plugin — a Dafny model

This project models the decision logic of UABEA's texture export plugin option
(`TexturePlugin/ExportTextureOption.cs`). The option is offered when every
selected asset container is a `Texture2D` and the host asks for an export. It
exports one texture through a save dialog, or several textures into one
folder. Batch export keeps going past per-item failures and shows a summary
of the error text, cut down to its first 20 `'\n'`-separated pieces.

Everything outside the plugin's own code is turned into inputs:

- The answers of the `TextureHelper` calls become fields of the per-item
  record `Texture.TextureFile`: `resSFound` for `GetResSTexture`, `rawBytes`
  for `GetRawTextureBytes` (with `None` standing for null), and
  `platformBlob` for `GetPlatformBlob`.
- The path helpers, the texture format's enum name and the pixel codec
  `TextureImportExport.Export` become function-valued fields of
  `Texture.Host`. The codec is a total function from its call arguments to
  the boolean it returns.
- The dialog answers become `Plugin.Answers`: the batch file type (`None` is
  null), the folders picked, and the save path (`None` means cancelled).
- A run returns a `Plugin.Run` value. It records the boolean result, the
  dialogs shown, the codec calls made in order, and the message box shown
  at the end, if any.

Modules:

- `Wrappers`: `Option`.
- `Text`: the .NET string operations the plugin uses. These are
  `Split(char)`, `Join(char, …)`, `Take`, ASCII `ToLower` and `Int64.ToString`.
  The module also proves split/join and parse/show round trips.
- `Texture`: the data model and the per-item pipeline. It covers the size,
  bundle, disk and codec checks in that order, the error line, and output
  naming.
- `Diagnostics`: the `StringBuilder.AppendLine` error text and the truncated
  summary.
- `Plugin`: applicability, the batch fold over the selection, single
  export, and the `ExecutePlugin` dispatch.

## Behaviour worth noting

Some of what the code does is easy to misread:

- Single export hands the codec the exact path chosen in the save dialog.
  The `{name}-{member}-{pathId}` stem is only the suggested name, without an
  extension. The uniform naming applies to batch export only.
- The batch summary keeps the first 20 pieces of the error text split on
  `'\n'`, not the first 20 error lines. `AppendLine` ends the text with a
  terminator, so fewer than 20 failures give one extra empty piece, and the
  shown text is the whole error text, trailing line break included. With a
  `"\r\n"` terminator each piece keeps its `'\r'`.
- A stream that is missing from the bundle is reported as "not found in
  bundle". The raw-byte read is never tried for it, so such an item never
  gets the "not found on disk" message.
- `SelectionValidForPlugin` accepts an empty selection for Export. Running
  the plugin on it makes `SingleExport` index `selection[0]`, which throws.
  The model returns `None` for that case.

## Model

| member | source | states |
|---|---|---|
| Plugin.SelectionValidForPlugin | TexturePlugin/ExportTextureOption.cs:18-34 | The option applies iff the action is Export and every container's class id is Texture2D (28), so an empty selection qualifies. The label is "Batch export textures" exactly when more than one item is selected, and "Export texture" otherwise. |
| Plugin.AllTextures | TexturePlugin/ExportTextureOption.cs:28-33 | The foreach over the selection returns true iff no container has a class id other than Texture2D. |
| Plugin.ExecutePlugin | TexturePlugin/ExportTextureOption.cs:36-42 | More than one item goes to batch export and exactly one goes to single export. An empty selection has no result, because indexing the first item throws. |
| Plugin.EmptySelectionOfferedButThrows | TexturePlugin/ExportTextureOption.cs:18-42 | An empty selection is accepted by the applicability check, but executing the option on it throws. |
| Texture.ClassifyItem | TexturePlugin/ExportTextureOption.cs:74-110 | An item is skipped iff it is 0x0; one zero dimension is not enough. The codec is reached iff the size, bundle and raw-byte checks all pass. It is then called with the raw bytes, the destination path, the texture's width, height and format, the member's platform and the platform blob. The item is exported iff the codec accepts that call. The resS outcomes name the stream's base file name, not its full path. A decode failure carries the format's enum name. |
| Texture.ClassifyIsFirstFailure | TexturePlugin/ExportTextureOption.cs:78-110 | The check an outcome reports is the first check, in the order size, bundle, disk, codec, that the item fails on its own. A later check never overrides an earlier one. |
| Texture.ErrorLine | TexturePlugin/ExportTextureOption.cs:72-108 | An outcome yields a line iff it is a failure. Each line starts with `[{fileName(member path)}/{pathId}]: ` and continues with the failure's reason. |
| Texture.ReasonNamesItsSubject | TexturePlugin/ExportTextureOption.cs:87-108 | The reason texts `Reason` gives: the bundle and disk reasons are the exact resS messages of :88 and :97 and carry the stream's file name. The decode reason is exactly "Failed to decode texture format " followed by the format's name. |
| Texture.ErrorLineHasNoNewline | TexturePlugin/ExportTextureOption.cs:72-108 | When the file names and the format name hold no line break, neither does the error line. |
| Texture.StemParts | TexturePlugin/ExportTextureOption.cs:81-82 | The stem `Stem` shared by the batch file name and the save-dialog suggestion (:147) starts with the sanitized texture name and a dash. It carries the member's file name between dashes and ends with the rendered path id, with nothing else in between, so it is exactly `{name}-{file}-{pathId}`. |
| Texture.BatchFileNameParts | TexturePlugin/ExportTextureOption.cs:81-82 | The batch file name is the stem `{sanitized name}-{member file name}-{pathId}`, then a dot, then the file type lower-cased. No upper-case ASCII letter follows the stem. |
| Texture.BatchFileNamesDistinct | TexturePlugin/ExportTextureOption.cs:81-82 | Two textures with the same sanitized name in the same member file but with different path ids get different batch file names. |
| Texture.BatchPathsDistinct | TexturePlugin/ExportTextureOption.cs:81-82 | `BatchPath` combines the chosen folder with the batch file name. Suppose the sanitized name, the member file name and the file type hold no `/`, `\` or `:`, and the folder keeps different names without those characters apart. Then two textures with the same sanitized name in the same member file but different path ids are written to different paths. A rooted second argument, which `Path.Combine` returns unchanged, cannot arise. |
| Text.ToLower | TexturePlugin/ExportTextureOption.cs:82 | Lower-casing keeps the length, leaves no upper-case ASCII letter, and changes only upper-case letters, each to its lower-case form. |
| Text.ShowInt | TexturePlugin/ExportTextureOption.cs:72 | A path id renders as decimal digits with no leading zero, with a leading '-' exactly when it is negative. |
| Text.ParseShowInt | TexturePlugin/ExportTextureOption.cs:72 | The rendered path id reads back to the path id. |
| Text.ShowIntInjective | TexturePlugin/ExportTextureOption.cs:82 | Different path ids render differently. |
| Text.Split | TexturePlugin/ExportTextureOption.cs:115 | Splitting on a character gives at least one piece, no piece holds the separator, and joining the pieces with it gives back the text. |
| Text.JoinParts | TexturePlugin/ExportTextureOption.cs:116 | `Join` of no pieces is "". A join starts with its first piece, followed by the separator when more pieces follow. |
| Text.SplitJoin | TexturePlugin/ExportTextureOption.cs:115-116 | Splitting a join of separator-free pieces gives back the pieces. |
| Text.Take | TexturePlugin/ExportTextureOption.cs:115 | Take(n) keeps min(n, length) elements and is a prefix of its input. |
| Diagnostics.ErrorText | TexturePlugin/ExportTextureOption.cs:88-113 | The StringBuilder after one AppendLine per error line is empty iff no line was appended. This is the `errorBuilder.Length > 0` test. |
| Diagnostics.ErrorTextAppend | TexturePlugin/ExportTextureOption.cs:88 | AppendLine extends the error text at its end by the line and the terminator, and changes nothing before it. |
| Diagnostics.SplitErrorText | TexturePlugin/ExportTextureOption.cs:88-115 | For lines without a line break, splitting the accumulated text on '\n' gives one piece per line, in order, followed by one empty piece. |
| Diagnostics.Summarize | TexturePlugin/ExportTextureOption.cs:113-116 | A summary exists iff the error text is non-empty. Splitting the summary gives exactly the first at most 20 pieces of the split error text, so it is a prefix of that split. When the text has at most 20 pieces, the summary is the whole text. |
| Diagnostics.SummaryOfLines | TexturePlugin/ExportTextureOption.cs:113-116 | With 20 or more error lines the summary is exactly the first 20 lines, each with its terminator residue. With fewer lines it is the whole error text. |
| Plugin.Report | TexturePlugin/ExportTextureOption.cs:70-111 | The batch report has one outcome per item, in input order. Each outcome is the item's classification at its batch path. |
| Plugin.Lines | TexturePlugin/ExportTextureOption.cs:70-111 | The error lines of the batch fold, one per failed item at most, so never more lines than items. |
| Plugin.Calls | TexturePlugin/ExportTextureOption.cs:84-104 | The codec calls of the batch fold, at most one per item. |
| Plugin.NoLinesIffNoFailure | TexturePlugin/ExportTextureOption.cs:70-113 | A batch records no error line iff no item fails, so the summary is shown iff some item failed. |
| Plugin.LinesAppend | TexturePlugin/ExportTextureOption.cs:70-111 | The error lines of a concatenation of items are the lines of the first part followed by those of the second. |
| Plugin.CallsAppend | TexturePlugin/ExportTextureOption.cs:70-111 | The codec calls of a concatenation of items are the calls of the first part followed by those of the second. |
| Plugin.LinesInInputOrder | TexturePlugin/ExportTextureOption.cs:70-111 | Item i's line comes after every earlier item's lines and before every later item's lines. |
| Plugin.OneLinePerFailure | TexturePlugin/ExportTextureOption.cs:70-111 | The batch records exactly as many lines as there are failed outcomes, so at most one per item. |
| Plugin.OneCallPerReachingItem | TexturePlugin/ExportTextureOption.cs:84-104 | The batch calls the codec exactly once for each item that passes the size, bundle and disk checks. |
| Plugin.SkippedItemIsSilent | TexturePlugin/ExportTextureOption.cs:77-79 | Inserting a 0x0 texture anywhere in a batch changes neither its error lines nor its codec calls. |
| Plugin.BatchExport | TexturePlugin/ExportTextureOption.cs:51-120 | A null or empty file type, or no folder picked, returns false with no codec call and no message. The folder dialog is shown only after a file type is chosen. Otherwise the run returns true whatever failed, makes exactly the batch's codec calls, and shows the summary iff some line was recorded. Split on '\n', the summary is exactly the first 20 pieces of the split error text, or all of them when there are fewer. |
| Plugin.BatchSummaryContents | TexturePlugin/ExportTextureOption.cs:113-117 | When no collaborator produces a line break, a batch with 20 or more failures shows exactly the first 20 error lines. One with fewer failures shows the whole error text. |
| Plugin.SingleExport | TexturePlugin/ExportTextureOption.cs:123-184 | A 0x0 texture returns false with "Texture size is 0x0. Texture cannot be exported." before any dialog. Otherwise the save dialog suggests the stem, and a cancel returns false silently. The codec is called at most once, with the chosen path and the raw bytes, and only when every earlier check passes. The result then equals the codec's answer. True means one call and no message. With a path chosen, a message is shown iff the run fails; its title is "Error" and its text is the item's error line for that path. |
| Plugin.SingleAgreesWithBatch | TexturePlugin/ExportTextureOption.cs:155-183 | Single export to the path that batch export would choose makes the same codec call as a one-item batch. Its message is exactly that batch's error line. |

## Left out

- Dialogs, message boxes, `StorageProvider` pickers, `FileDialogUtils` and the
  async `Task` machinery are not modelled. Their answers are inputs, and what
  they show is recorded in `Plugin.Run`.
- `TextureHelper.GetByteArrayTexture` is not modelled. It is the
  normalization at lines 46-49 and 127, and it runs before the cancel checks.
  The per-item record is taken to describe the texture after this step.
- `TextureFile.ReadTextureFile` and the `TextureHelper` lookups are not
  modelled, because their source is not part of this model. Their results are
  per-item observations.
- `TextureImportExport.Export` is not modelled: no pixel decoding, no file
  writing, and no write-then-rename atomicity. It is the boolean function
  `Host.codec` of its arguments.
- `PathUtils.ReplaceInvalidPathChars`, `Path.GetFileName`, `Path.Combine` and
  the `TextureFormat` enum's `ToString` are arbitrary functions of `Host`.
  Sanitizer idempotence is not claimed, since nothing shown establishes it.
- Exceptions that collaborators may throw are not modelled. An exception from
  any collaborator in the loop escapes it and ends the whole batch before its
  last item. Examples are `ReadTextureFile` at line 75, the `TextureHelper`
  calls at lines 85, 92 and 101, and the codec at line 104. The only modelled throw is indexing an empty selection.
- `UABEAPluginAction` is reduced to Export versus any other action, because
  the enum's definition is not part of this model.
- The terminator `Environment.NewLine` is a parameter (`"\n"` or `"\r\n"`).
  No other platform detail is modelled.
- Text.ToLower: covers ASCII letters only. Culture-specific mappings of
  `String.ToLower` are not modelled, such as the Turkish dotless i and
  non-ASCII letters.
- Text.ShowInt: covers `Int64.ToString` in the invariant culture. The path id
  is an unbounded integer, so the 64-bit range is not enforced.

=== FILE: diagnostics.dfy ===
/** The error text the batch loop accumulates with StringBuilder.AppendLine, and the
    truncated summary shown to the user: the text split on '\n', the first 20 pieces
    kept, and the pieces joined again with '\n'. */
module Diagnostics {
  import opened Wrappers
  import Text

  /** The line terminator AppendLine writes (Environment.NewLine). */
  datatype LineEnd = Lf | CrLf

  /** What a terminator leaves at the end of a piece once the text is split on '\n'. */
  function Residue(e: LineEnd): string {
    if e == Lf then "" else "\r"
  }

  function Terminator(e: LineEnd): string {
    Residue(e) + "\n"
  }

  /** The number of '\n'-separated pieces a summary keeps. */
  const SummaryPieces: nat := 20

  /** The contents of a StringBuilder after AppendLine of each of `lines` in turn. */
  function ErrorText(lines: seq<string>, e: LineEnd): (t: string)
    ensures |t| == 0 <==> |lines| == 0
  {
    if |lines| == 0 then "" else lines[0] + Terminator(e) + ErrorText(lines[1..], e)
  }

  /** Appending one more line extends the text at its end and changes nothing before. */
  lemma {:induction false} ErrorTextAppend(lines: seq<string>, line: string, e: LineEnd)
    ensures ErrorText(lines + [line], e) == ErrorText(lines, e) + line + Terminator(e)
    decreases |lines|
  {
    if |lines| == 0 {
      assert ErrorText([line], e) == line + Terminator(e) + ErrorText([], e);
    } else {
      assert (lines + [line])[1..] == lines[1..] + [line];
      ErrorTextAppend(lines[1..], line, e);
    }
  }

  /** The pieces the lines become once the text is split on '\n'. */
  function Pieces(lines: seq<string>, e: LineEnd): (ps: seq<string>)
    ensures |ps| == |lines|
  {
    seq(|lines|, i requires 0 <= i < |lines| => lines[i] + Residue(e))
  }

  predicate NoNewlines(lines: seq<string>) {
    forall i :: 0 <= i < |lines| ==> '\n' !in lines[i]
  }

  /** Splitting the accumulated text gives back one piece per line, in order, and one
      empty piece after the final terminator. */
  lemma {:induction false} SplitErrorText(lines: seq<string>, e: LineEnd)
    requires NoNewlines(lines)
    ensures Text.Split(ErrorText(lines, e), '\n') == Pieces(lines, e) + [""]
    decreases |lines|
  {
    if |lines| > 0 {
      var head, rest := lines[0] + Residue(e), ErrorText(lines[1..], e);
      ErrorTextCons(lines, e);
      Text.SplitAtSeparator(head, '\n', rest);
      SplitErrorText(lines[1..], e);
      PiecesCons(lines, e);
      Text.AppendAssoc([head], Pieces(lines[1..], e), [""]);
    }
  }

  /** The text of a non-empty list of lines is the first piece, a '\n', and the text of
      the remaining lines, and that first piece holds no '\n'. */
  lemma ErrorTextCons(lines: seq<string>, e: LineEnd)
    requires NoNewlines(lines) && |lines| > 0
    ensures ErrorText(lines, e) == lines[0] + Residue(e) + ['\n'] + ErrorText(lines[1..], e)
    ensures '\n' !in lines[0] + Residue(e)
    ensures NoNewlines(lines[1..])
  {
    assert Terminator(e) == Residue(e) + ['\n'];
    assert '\n' !in Residue(e);
  }

  lemma PiecesCons(lines: seq<string>, e: LineEnd)
    requires |lines| > 0
    ensures Pieces(lines, e) == [lines[0] + Residue(e)] + Pieces(lines[1..], e)
  {
  }

  /** The text shown after a batch: nothing when no error was recorded, otherwise the
      first 20 '\n'-pieces of the error text rejoined with '\n'. */
  function Summarize(text: string): (r: Option<string>)
    ensures r.Some? <==> |text| > 0
    ensures r.Some? ==> Text.Split(r.value, '\n') == Text.Take(Text.Split(text, '\n'), SummaryPieces)
    ensures r.Some? ==> |Text.Split(r.value, '\n')| <= SummaryPieces
    ensures r.Some? ==> Text.Split(r.value, '\n') <= Text.Split(text, '\n')
    ensures r.Some? && |Text.Split(text, '\n')| <= SummaryPieces ==> r.value == text
  {
    if |text| == 0 then None
    else
      var kept := Text.Take(Text.Split(text, '\n'), SummaryPieces);
      assert forall i :: 0 <= i < |kept| ==> kept[i] == Text.Split(text, '\n')[i];
      Text.SplitJoin(kept, '\n');
      Some(Text.Join(kept, '\n'))
  }

  /** For error lines without line breaks: a summary of at least 20 lines is exactly the
      first 20 of them, and a shorter one is the whole error text. */
  lemma SummaryOfLines(lines: seq<string>, e: LineEnd)
    requires |lines| > 0
    requires NoNewlines(lines)
    ensures |lines| >= SummaryPieces ==>
      Summarize(ErrorText(lines, e)) == Some(Text.Join(Pieces(lines, e)[..SummaryPieces], '\n'))
    ensures |lines| < SummaryPieces ==> Summarize(ErrorText(lines, e)) == Some(ErrorText(lines, e))
  {
    SplitErrorText(lines, e);
    var ps := Pieces(lines, e) + [""];
    if |lines| >= SummaryPieces {
      assert ps[..SummaryPieces] == Pieces(lines, e)[..SummaryPieces];
    }
  }
}

=== FILE: plugin.dfy ===
/** The export-texture plugin option: whether it applies to a selection, and what batch
    and single export do with the dialog answers and the per-item observations. */
module Plugin {
  import opened Wrappers
  import Text
  import opened Texture
  import opened Diagnostics

  /** The host's plugin action; only Export matters to this option. */
  datatype PluginAction = Export | OtherAction

  const BatchLabel: string := "Batch export textures"
  const SingleLabel: string := "Export texture"
  const ErrorTitle: string := "Error"
  const BatchErrorTitle: string := "Some errors occurred while exporting"

  /** The dialogs shown, in order. */
  datatype Dialog = ChooseFileType | PickFolder | PickSaveFile(suggested: string)

  datatype Message = Message(title: string, text: string)

  /** The user's answers to whichever dialogs are shown: the batch file type (None is
      null), the folders picked (none on cancel) and the save path (None on cancel). */
  datatype Answers = Answers(fileType: Option<string>, folders: seq<string>, saveFile: Option<string>)

  /** One run of the plugin: its boolean result, the dialogs it showed, the codec calls
      it made in order, and the message box it showed at the end, if any. */
  datatype Run = Run(ok: bool, dialogs: seq<Dialog>, calls: seq<ExportCall>, shown: Option<Message>)

  // ---------------------------------------------------------------------------
  // Applicability

  /** Every selected container is a Texture2D. */
  function AllTextures(sel: seq<Asset>): (r: bool)
    ensures r <==> forall i :: 0 <= i < |sel| ==> sel[i].classId == Texture2DClassId
  {
    |sel| == 0 || (sel[0].classId == Texture2DClassId && AllTextures(sel[1..]))
  }

  /** Whether the option is offered for `action` on `sel`, and the label it is offered
      under. */
  function SelectionValidForPlugin(action: PluginAction, sel: seq<Asset>): (r: (bool, string))
    ensures r.0 <==> action == Export && forall i :: 0 <= i < |sel| ==> sel[i].classId == Texture2DClassId
    ensures r.1 == BatchLabel <==> |sel| > 1
    ensures r.1 == BatchLabel || r.1 == SingleLabel
  {
    var name := if |sel| > 1 then BatchLabel else SingleLabel;
    if action != Export then (false, name)
    else (AllTextures(sel), name)
  }

  // ---------------------------------------------------------------------------
  // Batch export

  /** The outcome of `a` in a batch writing into `dir` with file type `fileType`. */
  function BatchOutcome(host: Host, dir: string, fileType: string, a: Asset): Outcome {
    ClassifyItem(host, a, BatchPath(host, dir, fileType, a))
  }

  /** The per-item outcomes of a batch, one per item in input order. */
  function Report(host: Host, dir: string, fileType: string, items: seq<Asset>): (r: seq<Outcome>)
    ensures |r| == |items|
    ensures forall i :: 0 <= i < |items| ==> r[i] == BatchOutcome(host, dir, fileType, items[i])
  {
    if |items| == 0 then []
    else [BatchOutcome(host, dir, fileType, items[0])] + Report(host, dir, fileType, items[1..])
  }

  /** The error line item `a` contributes to a batch, if it fails. */
  function ItemLine(host: Host, dir: string, fileType: string, a: Asset): seq<string> {
    AsSeq(ErrorLine(host, a, BatchOutcome(host, dir, fileType, a)))
  }

  /** The codec call item `a` causes in a batch, if it reaches the codec. */
  function ItemCall(host: Host, dir: string, fileType: string, a: Asset): seq<ExportCall> {
    AsSeq(CallOf(BatchOutcome(host, dir, fileType, a)))
  }

  /** The error lines a batch records: each item's line, if it has one, in input order. */
  function Lines(host: Host, dir: string, fileType: string, items: seq<Asset>): (r: seq<string>)
    ensures |r| <= |items|
  {
    if |items| == 0 then []
    else ItemLine(host, dir, fileType, items[0]) + Lines(host, dir, fileType, items[1..])
  }

  /** The codec calls a batch makes, in input order. */
  function Calls(host: Host, dir: string, fileType: string, items: seq<Asset>): (r: seq<ExportCall>)
    ensures |r| <= |items|
  {
    if |items| == 0 then []
    else ItemCall(host, dir, fileType, items[0]) + Calls(host, dir, fileType, items[1..])
  }

  /** The number of failed outcomes in a report. */
  function CountFailures(report: seq<Outcome>): nat {
    if |report| == 0 then 0
    else (if IsFailure(report[0]) then 1 else 0) + CountFailures(report[1..])
  }

  /** The number of items that pass every check before the codec. */
  function CountReaching(items: seq<Asset>): nat {
    if |items| == 0 then 0
    else (if ReachesCodec(items[0]) then 1 else 0) + CountReaching(items[1..])
  }

  /** The lines of a concatenation are the lines of its parts, in order. */
  lemma {:induction false} LinesAppend(host: Host, dir: string, fileType: string, xs: seq<Asset>, ys: seq<Asset>)
    ensures Lines(host, dir, fileType, xs + ys) == Lines(host, dir, fileType, xs) + Lines(host, dir, fileType, ys)
    decreases |xs|
  {
    if |xs| == 0 {
      assert xs + ys == ys;
    } else {
      var h := ItemLine(host, dir, fileType, xs[0]);
      assert (xs + ys)[0] == xs[0];
      assert (xs + ys)[1..] == xs[1..] + ys;
      assert Lines(host, dir, fileType, xs + ys) == h + Lines(host, dir, fileType, xs[1..] + ys);
      LinesAppend(host, dir, fileType, xs[1..], ys);
      Text.AppendAssoc(h, Lines(host, dir, fileType, xs[1..]), Lines(host, dir, fileType, ys));
    }
  }

  /** A batch records no line exactly when none of its items fails, so the summary is
      shown iff some item failed. */
  lemma {:induction false} NoLinesIffNoFailure(host: Host, dir: string, fileType: string, items: seq<Asset>)
    ensures Lines(host, dir, fileType, items) == []
        <==> forall i :: 0 <= i < |items| ==> !IsFailure(BatchOutcome(host, dir, fileType, items[i]))
    decreases |items|
  {
    if |items| > 0 {
      NoLinesIffNoFailure(host, dir, fileType, items[1..]);
      assert forall i :: 1 <= i < |items| ==> items[1..][i - 1] == items[i];
    }
  }

  /** The codec calls of a concatenation are those of its parts, in order. */
  lemma {:induction false} CallsAppend(host: Host, dir: string, fileType: string, xs: seq<Asset>, ys: seq<Asset>)
    ensures Calls(host, dir, fileType, xs + ys) == Calls(host, dir, fileType, xs) + Calls(host, dir, fileType, ys)
    decreases |xs|
  {
    if |xs| == 0 {
      assert xs + ys == ys;
    } else {
      var h := ItemCall(host, dir, fileType, xs[0]);
      assert (xs + ys)[0] == xs[0];
      assert (xs + ys)[1..] == xs[1..] + ys;
      assert Calls(host, dir, fileType, xs + ys) == h + Calls(host, dir, fileType, xs[1..] + ys);
      CallsAppend(host, dir, fileType, xs[1..], ys);
      Text.AppendAssoc(h, Calls(host, dir, fileType, xs[1..]), Calls(host, dir, fileType, ys));
    }
  }

  /** Item `i`'s line, if any, comes after the lines of every earlier item and before
      the lines of every later one. */
  lemma LinesInInputOrder(host: Host, dir: string, fileType: string, items: seq<Asset>, i: nat)
    requires i < |items|
    ensures Lines(host, dir, fileType, items)
         == Lines(host, dir, fileType, items[..i])
          + ItemLine(host, dir, fileType, items[i])
          + Lines(host, dir, fileType, items[i + 1..])
  {
    assert items == items[..i] + ([items[i]] + items[i + 1..]);
    LinesAppend(host, dir, fileType, items[..i], [items[i]] + items[i + 1..]);
    assert ([items[i]] + items[i + 1..])[1..] == items[i + 1..];
  }

  /** A batch records exactly one line per failed item. */
  lemma {:induction false} OneLinePerFailure(host: Host, dir: string, fileType: string, items: seq<Asset>)
    ensures |Lines(host, dir, fileType, items)| == CountFailures(Report(host, dir, fileType, items))
    ensures |Lines(host, dir, fileType, items)| <= |items|
    decreases |items|
  {
    if |items| > 0 {
      OneLinePerFailure(host, dir, fileType, items[1..]);
      assert Report(host, dir, fileType, items)[1..] == Report(host, dir, fileType, items[1..]);
    }
  }

  /** A batch calls the codec once for each item that passes the size, bundle and disk
      checks, and for no other item. */
  lemma {:induction false} OneCallPerReachingItem(host: Host, dir: string, fileType: string, items: seq<Asset>)
    ensures |Calls(host, dir, fileType, items)| == CountReaching(items)
    decreases |items|
  {
    if |items| > 0 {
      OneCallPerReachingItem(host, dir, fileType, items[1..]);
    }
  }

  lemma OneItemBatch(host: Host, dir: string, fileType: string, a: Asset)
    ensures Lines(host, dir, fileType, [a]) == ItemLine(host, dir, fileType, a)
    ensures Calls(host, dir, fileType, [a]) == ItemCall(host, dir, fileType, a)
  {
  }

  /** A 0x0 texture adds neither a line nor a codec call to a batch. */
  lemma SkippedItemIsSilent(host: Host, dir: string, fileType: string, xs: seq<Asset>, a: Asset, ys: seq<Asset>)
    requires Degenerate(a.texture)
    ensures Lines(host, dir, fileType, xs + [a] + ys) == Lines(host, dir, fileType, xs + ys)
    ensures Calls(host, dir, fileType, xs + [a] + ys) == Calls(host, dir, fileType, xs + ys)
  {
    assert BatchOutcome(host, dir, fileType, a).Skipped?;
    LinesWithoutItem(host, dir, fileType, xs, a, ys);
    CallsWithoutItem(host, dir, fileType, xs, a, ys);
  }

  lemma LinesWithoutItem(host: Host, dir: string, fileType: string, xs: seq<Asset>, a: Asset, ys: seq<Asset>)
    requires ItemLine(host, dir, fileType, a) == []
    ensures Lines(host, dir, fileType, xs + [a] + ys) == Lines(host, dir, fileType, xs + ys)
  {
    OneItemBatch(host, dir, fileType, a);
    LinesAppend(host, dir, fileType, xs + [a], ys);
    LinesAppend(host, dir, fileType, xs, [a]);
    LinesAppend(host, dir, fileType, xs, ys);
  }

  lemma CallsWithoutItem(host: Host, dir: string, fileType: string, xs: seq<Asset>, a: Asset, ys: seq<Asset>)
    requires ItemCall(host, dir, fileType, a) == []
    ensures Calls(host, dir, fileType, xs + [a] + ys) == Calls(host, dir, fileType, xs + ys)
  {
    OneItemBatch(host, dir, fileType, a);
    CallsAppend(host, dir, fileType, xs + [a], ys);
    CallsAppend(host, dir, fileType, xs, [a]);
    CallsAppend(host, dir, fileType, xs, ys);
  }

  /** The file type and folder answers let the batch reach its export loop. */
  predicate BatchProceeds(answers: Answers) {
    answers.fileType.Some? && answers.fileType.value != "" && |answers.folders| > 0
  }

  /** Batch export: ask for a file type, then a folder; either cancelled ends the run
      with false before any item is touched. Otherwise every item goes through the
      loop, the truncated error summary is shown if any line was recorded, and the run
      returns true whatever failed. */
  function BatchExport(host: Host, items: seq<Asset>, answers: Answers, e: LineEnd): (r: Run)
    ensures r.ok <==> BatchProceeds(answers)
    ensures r.dialogs == if answers.fileType.Some? && answers.fileType.value != ""
                         then [ChooseFileType, PickFolder] else [ChooseFileType]
    ensures !r.ok ==> r.calls == [] && r.shown.None?
    ensures r.ok ==> r.calls == Calls(host, answers.folders[0], answers.fileType.value, items)
    ensures r.ok ==> (r.shown.Some? <==> Lines(host, answers.folders[0], answers.fileType.value, items) != [])
    ensures r.shown.Some? ==> r.shown.value.title == BatchErrorTitle
    ensures r.shown.Some? ==>
      var full := Text.Split(ErrorText(Lines(host, answers.folders[0], answers.fileType.value, items), e), '\n');
      var shown := Text.Split(r.shown.value.text, '\n');
      shown == Text.Take(full, SummaryPieces) && |shown| <= SummaryPieces && shown <= full
  {
    match answers.fileType
    case None => Run(false, [ChooseFileType], [], None)
    case Some(fileType) =>
      if fileType == "" then Run(false, [ChooseFileType], [], None)
      else if |answers.folders| == 0 then Run(false, [ChooseFileType, PickFolder], [], None)
      else
        var dir := answers.folders[0];
        var text := ErrorText(Lines(host, dir, fileType, items), e);
        var shown := match Summarize(text)
          case None => None
          case Some(s) => Some(Message(BatchErrorTitle, s));
        Run(true, [ChooseFileType, PickFolder], Calls(host, dir, fileType, items), shown)
  }

  /** When no collaborator produces a line break, a batch with at least 20 failed items
      shows exactly the first 20 error lines, and one with fewer shows all of them. */
  lemma BatchSummaryContents(host: Host, items: seq<Asset>, answers: Answers, e: LineEnd)
    requires BatchProceeds(answers)
    requires forall a :: a in items ==> '\n' !in host.fileName(a.memberPath)
    requires forall a :: a in items ==> '\n' !in host.fileName(a.texture.streamPath)
    requires forall a :: a in items ==> '\n' !in host.formatName(a.texture.format)
    ensures var lines := Lines(host, answers.folders[0], answers.fileType.value, items);
      && (|lines| >= SummaryPieces ==>
            BatchExport(host, items, answers, e).shown
            == Some(Message(BatchErrorTitle, Text.Join(Pieces(lines, e)[..SummaryPieces], '\n'))))
      && (0 < |lines| < SummaryPieces ==>
            BatchExport(host, items, answers, e).shown == Some(Message(BatchErrorTitle, ErrorText(lines, e))))
  {
    var dir, fileType := answers.folders[0], answers.fileType.value;
    var lines := Lines(host, dir, fileType, items);
    LinesHaveNoNewline(host, dir, fileType, items);
    if |lines| > 0 {
      SummaryOfLines(lines, e);
    }
  }

  lemma {:induction false} LinesHaveNoNewline(host: Host, dir: string, fileType: string, items: seq<Asset>)
    requires forall a :: a in items ==> '\n' !in host.fileName(a.memberPath)
    requires forall a :: a in items ==> '\n' !in host.fileName(a.texture.streamPath)
    requires forall a :: a in items ==> '\n' !in host.formatName(a.texture.format)
    ensures NoNewlines(Lines(host, dir, fileType, items))
    decreases |items|
  {
    if |items| > 0 {
      var a := items[0];
      ErrorLineHasNoNewline(host, a, BatchPath(host, dir, fileType, a));
      LinesHaveNoNewline(host, dir, fileType, items[1..]);
    }
  }

  // ---------------------------------------------------------------------------
  // Single export

  /** Single export: a 0x0 texture is refused with a message before any dialog; then the
      save dialog is shown with the stem as suggested name, and a cancel returns false
      silently; otherwise the item goes through the same checks as in a batch, with
      the chosen path as destination, and a failure is reported in a message box. */
  function SingleExport(host: Host, a: Asset, saveFile: Option<string>): (r: Run)
    ensures Degenerate(a.texture) ==> r == Run(false, [], [], Some(Message(ErrorTitle, ZeroSizeMessage)))
    ensures !Degenerate(a.texture) ==> r.dialogs == [PickSaveFile(Stem(host, a))]
    ensures !Degenerate(a.texture) && saveFile.None? ==> !r.ok && r.calls == [] && r.shown.None?
    ensures |r.calls| <= 1
    ensures |r.calls| == 1 <==> saveFile.Some? && ReachesCodec(a)
    ensures |r.calls| == 1 ==> r.calls[0].path == saveFile.value && r.ok == host.codec(r.calls[0])
    ensures r.ok <==> |r.calls| == 1 && r.shown.None?
    ensures |r.calls| == 1 ==> Some(r.calls[0].data) == a.texture.rawBytes
    ensures !Degenerate(a.texture) && saveFile.Some? ==>
      && (r.shown.Some? <==> !r.ok)
      && (r.shown.Some? ==> r.shown.value.title == ErrorTitle
                            && Some(r.shown.value.text) == ErrorLine(host, a, ClassifyItem(host, a, saveFile.value)))
  {
    if Degenerate(a.texture) then Run(false, [], [], Some(Message(ErrorTitle, ZeroSizeMessage)))
    else
      var dialogs := [PickSaveFile(Stem(host, a))];
      match saveFile
      case None => Run(false, dialogs, [], None)
      case Some(path) =>
        var o := ClassifyItem(host, a, path);
        var shown := match ErrorLine(host, a, o)
          case None => None
          case Some(line) => Some(Message(ErrorTitle, line));
        Run(o.Exported?, dialogs, AsSeq(CallOf(o)), shown)
  }

  /** Saving a texture to the path batch export would pick for it behaves like a
      one-item batch: the same codec call, and the batch's error line as the message. */
  lemma SingleAgreesWithBatch(host: Host, a: Asset, dir: string, fileType: string)
    requires !Degenerate(a.texture)
    ensures var r := SingleExport(host, a, Some(BatchPath(host, dir, fileType, a)));
      && r.calls == Calls(host, dir, fileType, [a])
      && (r.shown.Some? <==> Lines(host, dir, fileType, [a]) != [])
      && (r.shown.Some? ==> [r.shown.value.text] == Lines(host, dir, fileType, [a]))
  {
  }

  // ---------------------------------------------------------------------------
  // Entry point

  /** ExecutePlugin: batch export for more than one selected item, single export of the
      first item otherwise; on an empty selection indexing the first item throws, which
      is None here. */
  function ExecutePlugin(host: Host, sel: seq<Asset>, answers: Answers, e: LineEnd): (r: Option<Run>)
    ensures r.None? <==> |sel| == 0
    ensures |sel| > 1 ==> r == Some(BatchExport(host, sel, answers, e))
    ensures |sel| == 1 ==> r == Some(SingleExport(host, sel[0], answers.saveFile))
  {
    if |sel| > 1 then Some(BatchExport(host, sel, answers, e))
    else if |sel| == 1 then Some(SingleExport(host, sel[0], answers.saveFile))
    else None
  }

  /** The option is offered for an empty selection, but running it there throws. */
  lemma EmptySelectionOfferedButThrows(host: Host, answers: Answers, e: LineEnd)
    ensures SelectionValidForPlugin(Export, []) == (true, SingleLabel)
    ensures ExecutePlugin(host, [], answers, e).None?
  {
  }
}

=== FILE: text.dfy ===
/** The string operations of the .NET base library that the exporter relies on:
    String.Split(char), String.Join(char, ...), Enumerable.Take, String.ToLower
    and the decimal rendering of a 64-bit integer. */
module Text {

  // ---------------------------------------------------------------------------
  // Sequence facts

  /** The two parts of a concatenation can be read back from it. */
  lemma ConcatParts<T>(p: seq<T>, q: seq<T>)
    ensures p <= p + q
    ensures (p + q)[|p|..] == q
  {
  }

  /** Different middles with equal surroundings make different strings. */
  lemma MiddleDiffers<T>(p: seq<T>, x: seq<T>, y: seq<T>, e: seq<T>)
    requires x != y
    ensures p + x + e != p + y + e
  {
    if |x| == |y| {
      assert (p + x + e)[|p|..|p| + |x|] == x;
      assert (p + y + e)[|p|..|p| + |y|] == y;
    } else {
      assert |p + x + e| != |p + y + e|;
    }
  }

  /** Concatenation is associative. */
  lemma AppendAssoc<T>(a: seq<T>, b: seq<T>, c: seq<T>)
    ensures a + (b + c) == (a + b) + c
  {
  }

  // ---------------------------------------------------------------------------
  // Split and Join

  /** Joins `ps` with `sep` between consecutive pieces; the empty sequence joins to "". */
  function Join(ps: seq<string>, sep: char): string {
    if |ps| == 0 then ""
    else if |ps| == 1 then ps[0]
    else ps[0] + [sep] + Join(ps[1..], sep)
  }

  /** A join starts with its first piece, followed by the separator when more pieces
      follow; no pieces join to "". */
  lemma JoinParts(ps: seq<string>, sep: char)
    ensures |ps| == 0 ==> Join(ps, sep) == ""
    ensures |ps| > 0 ==> ps[0] <= Join(ps, sep)
    ensures |ps| > 1 ==> |ps[0]| < |Join(ps, sep)| && Join(ps, sep)[|ps[0]|] == sep
  {
  }

  /** The pieces of `s` between occurrences of `sep`, as String.Split(char) returns them:
      "" gives [""], and a trailing separator gives a trailing empty piece. */
  function Split(s: string, sep: char): (ps: seq<string>)
    ensures |ps| >= 1
    ensures forall i :: 0 <= i < |ps| ==> sep !in ps[i]
    ensures Join(ps, sep) == s
    decreases |s|
  {
    if |s| == 0 then [""]
    else if s[0] == sep then
      var rest := Split(s[1..], sep);
      assert s == [sep] + s[1..];
      [""] + rest
    else
      var rest := Split(s[1..], sep);
      var ps := [[s[0]] + rest[0]] + rest[1..];
      assert Join(ps, sep) == s by {
        if |rest| > 1 {
          assert ps[1..] == rest[1..];
          assert Join(rest, sep) == rest[0] + [sep] + Join(rest[1..], sep);
        }
        assert s == [s[0]] + s[1..];
      }
      ps
  }

  /** A string without the separator splits into itself alone. */
  lemma SplitNoSeparator(s: string, sep: char)
    requires sep !in s
    ensures Split(s, sep) == [s]
  {
  }

  /** Splitting at the first separator peels off the piece before it. */
  lemma {:induction false} SplitAtSeparator(p: string, sep: char, t: string)
    requires sep !in p
    ensures Split(p + [sep] + t, sep) == [p] + Split(t, sep)
    decreases |p|
  {
    var s := p + [sep] + t;
    if |p| == 0 {
      assert s[0] == sep && s[1..] == t;
    } else {
      assert s[0] == p[0] && s[1..] == p[1..] + [sep] + t;
      assert sep !in p[1..];
      SplitAtSeparator(p[1..], sep, t);
      assert [p[0]] + p[1..] == p;
    }
  }

  /** Split undoes Join when no piece contains the separator. */
  lemma {:induction false} SplitJoin(ps: seq<string>, sep: char)
    requires |ps| >= 1
    requires forall i :: 0 <= i < |ps| ==> sep !in ps[i]
    ensures Split(Join(ps, sep), sep) == ps
    decreases |ps|
  {
    if |ps| == 1 {
      SplitNoSeparator(ps[0], sep);
    } else {
      SplitJoin(ps[1..], sep);
      SplitAtSeparator(ps[0], sep, Join(ps[1..], sep));
      assert [ps[0]] + ps[1..] == ps;
    }
  }

  /** Enumerable.Take: the first `n` elements, or all of them when there are fewer. */
  function Take<T>(xs: seq<T>, n: nat): (r: seq<T>)
    ensures |r| == if |xs| <= n then |xs| else n
    ensures r <= xs
  {
    if |xs| <= n then xs else xs[..n]
  }

  // ---------------------------------------------------------------------------
  // Lower-casing

  /** `c` is an upper-case ASCII letter. */
  predicate IsAsciiUpper(c: char) {
    'A' <= c <= 'Z'
  }

  function LowerChar(c: char): char {
    if IsAsciiUpper(c) then (c as int + 32) as char else c
  }

  /** String.ToLower restricted to ASCII letters: every upper-case letter becomes its
      lower-case form and every other character is kept. */
  function ToLower(s: string): (r: string)
    ensures |r| == |s|
    ensures forall i :: 0 <= i < |r| ==> !IsAsciiUpper(r[i])
    ensures forall i :: 0 <= i < |r| ==> r[i] == s[i] || (IsAsciiUpper(s[i]) && r[i] as int == s[i] as int + 32)
  {
    seq(|s|, i requires 0 <= i < |s| => LowerChar(s[i]))
  }

  // ---------------------------------------------------------------------------
  // Decimal rendering of integers (Int64.ToString in the invariant culture)

  predicate IsDigit(c: char) {
    '0' <= c <= '9'
  }

  predicate AllDigits(s: string) {
    forall i :: 0 <= i < |s| ==> IsDigit(s[i])
  }

  function DigitChar(d: nat): (c: char)
    requires d < 10
    ensures IsDigit(c)
    ensures c as int - '0' as int == d
  {
    ('0' as int + d) as char
  }

  /** The decimal digits of `n`, most significant first, with no leading zero. */
  function ShowNat(n: nat): (s: string)
    ensures |s| >= 1
    ensures AllDigits(s)
    ensures |s| > 1 ==> s[0] != '0'
    decreases n
  {
    if n < 10 then [DigitChar(n)] else ShowNat(n / 10) + [DigitChar(n % 10)]
  }

  /** The value of a string of decimal digits. */
  function ParseNat(s: string): nat
    requires AllDigits(s)
  {
    if |s| == 0 then 0 else ParseNat(s[..|s| - 1]) * 10 + (s[|s| - 1] as int - '0' as int)
  }

  /** `n.ToString()`: a leading '-' for negative values, then the digits of the magnitude. */
  function ShowInt(n: int): (s: string)
    ensures |s| >= 1
    ensures s[0] == '-' <==> n < 0
    ensures AllDigits(if n < 0 then s[1..] else s)
    ensures var d := if n < 0 then s[1..] else s; |d| >= 1 && (|d| > 1 ==> d[0] != '0')
  {
    if n < 0 then "-" + ShowNat(-n) else ShowNat(n)
  }

  /** Reads back the rendering of ShowInt. */
  function ParseInt(s: string): int
    requires |s| >= 1
    requires AllDigits(if s[0] == '-' then s[1..] else s)
  {
    if s[0] == '-' then -(ParseNat(s[1..]) as int) else ParseNat(s)
  }

  lemma {:induction false} ParseShowNat(n: nat)
    ensures ParseNat(ShowNat(n)) == n
    decreases n
  {
    if n >= 10 {
      var s := ShowNat(n);
      assert s[..|s| - 1] == ShowNat(n / 10);
      ParseShowNat(n / 10);
    }
  }

  /** The decimal rendering reads back to the number it renders. */
  lemma ParseShowInt(n: int)
    ensures ParseInt(ShowInt(n)) == n
  {
    if n < 0 {
      assert ShowInt(n)[1..] == ShowNat(-n);
      ParseShowNat(-n);
    } else {
      ParseShowNat(n);
    }
  }

  /** Distinct numbers render to distinct strings. */
  lemma ShowIntInjective(a: int, b: int)
    ensures ShowInt(a) == ShowInt(b) ==> a == b
  {
    ParseShowInt(a);
    ParseShowInt(b);
  }

  /** A rendered number holds no character other than digits and a leading '-'. */
  lemma ShowIntNoNewline(n: int)
    ensures '\n' !in ShowInt(n)
  {
  }

  /** A rendered integer holds nothing but digits and the minus sign. */
  lemma ShowIntSignAndDigits(n: int)
    ensures forall i :: 0 <= i < |ShowInt(n)| ==> ShowInt(n)[i] == '-' || IsDigit(ShowInt(n)[i])
  {
    var s := ShowInt(n);
    if n < 0 {
      assert forall i :: 1 <= i < |s| ==> s[1..][i - 1] == s[i];
    }
  }
}

=== FILE: texture.dfy ===
/** The data the texture exporter works on and its per-item decisions: the texture
    observations, the collaborators it calls, the classification of one texture into
    an outcome, the error line an outcome produces and the output file name. */
module Texture {
  import opened Wrappers
  import Text

  /** AssetClassID.Texture2D, the Unity class id of a texture asset. */
  const Texture2DClassId: int := 28

  /** What the exporter reads off one texture record, with the answers of the
      TextureHelper calls about it recorded as observations. */
  datatype TextureFile = TextureFile(
    name: string,                    // m_Name
    width: int,                      // m_Width
    height: int,                     // m_Height
    format: int,                     // m_TextureFormat
    streamPath: string,              // m_StreamData.path
    resSFound: bool,                 // TextureHelper.GetResSTexture
    rawBytes: Option<seq<bv8>>,      // TextureHelper.GetRawTextureBytes; None is null
    platformBlob: Option<seq<bv8>>)  // TextureHelper.GetPlatformBlob, passed through

  /** One selected asset container: its class, the archive member it lives in,
      its path id inside that member, and the texture read from it. */
  datatype Asset = Asset(
    classId: int,
    memberPath: string,              // FileInstance.path
    pathId: int,                     // PathId, a 64-bit integer
    platform: int,                   // the member's Metadata.TargetPlatform
    texture: TextureFile)

  /** The arguments of one call of the pixel codec. */
  datatype ExportCall = ExportCall(
    data: seq<bv8>,
    path: string,
    width: int,
    height: int,
    format: int,
    platform: int,
    blob: Option<seq<bv8>>)

  /** The collaborators whose code is not part of this model, as total functions. */
  datatype Host = Host(
    fileName: string -> string,            // Path.GetFileName
    sanitize: string -> string,            // PathUtils.ReplaceInvalidPathChars
    combine: (string, string) -> string,   // Path.Combine
    formatName: int -> string,             // ((TextureFormat)f).ToString()
    codec: ExportCall -> bool)             // TextureImportExport.Export

  /** What happened to one texture. */
  datatype Outcome =
    | Skipped                                        // 0x0 placeholder texture
    | NotInBundle(resS: string)                      // resS stream missing from the bundle
    | NotOnDisk(resS: string)                        // raw bytes could not be read
    | DecodeFailed(call: ExportCall, format: string) // the codec refused the texture
    | Exported(call: ExportCall)                     // the codec wrote the file

  predicate IsFailure(o: Outcome) {
    o.NotInBundle? || o.NotOnDisk? || o.DecodeFailed?
  }

  /** The codec call an outcome records, if the codec was reached. */
  function CallOf(o: Outcome): Option<ExportCall> {
    match o
    case DecodeFailed(c, _) => Some(c)
    case Exported(c) => Some(c)
    case _ => None
  }

  /** A 0x0 texture, such as a font atlas placeholder: never exported. */
  predicate Degenerate(t: TextureFile) {
    t.width == 0 && t.height == 0
  }

  /** The codec call for `a`'s pixel data written to `dest`: the texture's size and
      format, the member's target platform and the platform blob. */
  function CallFor(a: Asset, data: seq<bv8>, dest: string): ExportCall {
    ExportCall(data, dest, a.texture.width, a.texture.height, a.texture.format, a.platform, a.texture.platformBlob)
  }

  /** The per-item pipeline shared by batch and single export, for a texture whose
      output goes to `dest`: size, then bundle stream, then raw bytes, then the codec. */
  function ClassifyItem(host: Host, a: Asset, dest: string): (o: Outcome)
    ensures o.Skipped? <==> Degenerate(a.texture)
    ensures CallOf(o).Some? <==> ReachesCodec(a)
    ensures CallOf(o).Some? ==> CallOf(o).value.path == dest && Some(CallOf(o).value.data) == a.texture.rawBytes
    ensures CallOf(o).Some? ==> CallOf(o).value == CallFor(a, a.texture.rawBytes.value, dest)
    ensures o.Exported? <==> ReachesCodec(a) && host.codec(o.call)
    ensures (o.NotInBundle? || o.NotOnDisk?) ==> o.resS == host.fileName(a.texture.streamPath)
    ensures o.DecodeFailed? ==> o.format == host.formatName(a.texture.format)
  {
    var t := a.texture;
    if Degenerate(t) then Skipped
    else if !t.resSFound then NotInBundle(host.fileName(t.streamPath))
    else match t.rawBytes
      case None => NotOnDisk(host.fileName(t.streamPath))
      case Some(data) =>
        var call := CallFor(a, data, dest);
        if host.codec(call) then Exported(call) else DecodeFailed(call, host.formatName(t.format))
  }

  /** Every check before the codec passes. */
  predicate ReachesCodec(a: Asset) {
    !Degenerate(a.texture) && a.texture.resSFound && a.texture.rawBytes.Some?
  }

  // ---------------------------------------------------------------------------
  // The check order, stated independently of ClassifyItem

  datatype Check = SizeCheck | BundleCheck | DiskCheck | CodecCheck

  const CheckOrder: seq<Check> := [SizeCheck, BundleCheck, DiskCheck, CodecCheck]

  /** Whether `a` passes check `c` on its own, regardless of the other checks. */
  predicate Passes(host: Host, a: Asset, dest: string, c: Check) {
    match c
    case SizeCheck => !Degenerate(a.texture)
    case BundleCheck => a.texture.resSFound
    case DiskCheck => a.texture.rawBytes.Some?
    case CodecCheck => a.texture.rawBytes.Some? && host.codec(CallFor(a, a.texture.rawBytes.value, dest))
  }

  /** The first check of `cs` that `a` does not pass. */
  function FirstFailing(host: Host, a: Asset, dest: string, cs: seq<Check>): (r: Option<Check>)
    ensures r.Some? ==> r.value in cs && !Passes(host, a, dest, r.value)
    ensures r.None? <==> forall i :: 0 <= i < |cs| ==> Passes(host, a, dest, cs[i])
  {
    if |cs| == 0 then None
    else if !Passes(host, a, dest, cs[0]) then Some(cs[0])
    else FirstFailing(host, a, dest, cs[1..])
  }

  /** The check an outcome reports as failed; Skipped reports the size check. */
  function FailedCheck(o: Outcome): Option<Check> {
    match o
    case Skipped => Some(SizeCheck)
    case NotInBundle(_) => Some(BundleCheck)
    case NotOnDisk(_) => Some(DiskCheck)
    case DecodeFailed(_, _) => Some(CodecCheck)
    case Exported(_) => None
  }

  /** The outcome of an item is decided by the first check, in the fixed order, that it
      fails: later checks never override earlier ones. */
  lemma ClassifyIsFirstFailure(host: Host, a: Asset, dest: string)
    ensures FailedCheck(ClassifyItem(host, a, dest)) == FirstFailing(host, a, dest, CheckOrder)
  {
    var cs := CheckOrder;
    assert cs[1..] == [BundleCheck, DiskCheck, CodecCheck];
    assert cs[1..][1..] == [DiskCheck, CodecCheck];
    assert cs[1..][1..][1..] == [CodecCheck];
    assert cs[1..][1..][1..][1..] == [];
    var t := a.texture;
    if Degenerate(t) {
    } else if !t.resSFound {
      assert FirstFailing(host, a, dest, cs) == FirstFailing(host, a, dest, cs[1..]);
    } else if t.rawBytes.None? {
      assert FirstFailing(host, a, dest, cs) == FirstFailing(host, a, dest, cs[1..][1..]);
    } else {
      assert FirstFailing(host, a, dest, cs) == FirstFailing(host, a, dest, cs[1..][1..][1..]);
    }
  }

  // ---------------------------------------------------------------------------
  // Diagnostics

  /** `{file name of the member}/{path id}`, the identity an error line starts with. */
  function AssetLabel(host: Host, a: Asset): string {
    host.fileName(a.memberPath) + "/" + Text.ShowInt(a.pathId)
  }

  function LinePrefix(host: Host, a: Asset): string {
    "[" + AssetLabel(host, a) + "]: "
  }

  const ZeroSizeMessage: string := "Texture size is 0x0. Texture cannot be exported."

  /** The words both resS messages start with, before the stream's file name. */
  const ResSLead: string := "resS was detected but "

  /** The reason text of a failed outcome. */
  function Reason(o: Outcome): string
    requires IsFailure(o)
  {
    match o
    case NotInBundle(n) => ResSLead + n + " was not found in bundle"
    case NotOnDisk(n) => ResSLead + n + " was not found on disk"
    case DecodeFailed(_, f) => "Failed to decode texture format " + f
  }

  /** The resS reasons name the stream's file and say where it was missing; the decode
      reason ends with the texture format's name. */
  lemma ReasonNamesItsSubject(o: Outcome)
    requires IsFailure(o)
    ensures o.NotInBundle? ==> Reason(o) == "resS was detected but " + o.resS + " was not found in bundle"
    ensures o.NotOnDisk? ==> Reason(o) == "resS was detected but " + o.resS + " was not found on disk"
    ensures o.NotInBundle? || o.NotOnDisk? ==>
      ResSLead <= Reason(o) && Reason(o)[|ResSLead|..|ResSLead| + |o.resS|] == o.resS
    ensures o.DecodeFailed? ==> Reason(o) == "Failed to decode texture format " + o.format
    ensures o.DecodeFailed? ==> |o.format| <= |Reason(o)| && Reason(o)[|Reason(o)| - |o.format|..] == o.format
  {
  }

  /** The diagnostic an item contributes: one line for a failure, nothing otherwise;
      the line is the item's identity prefix followed by the reason. */
  function ErrorLine(host: Host, a: Asset, o: Outcome): (r: Option<string>)
    ensures r.Some? <==> IsFailure(o)
    ensures r.Some? ==> LinePrefix(host, a) <= r.value && r.value[|LinePrefix(host, a)|..] == Reason(o)
  {
    if IsFailure(o) then
      Text.ConcatParts(LinePrefix(host, a), Reason(o));
      Some(LinePrefix(host, a) + Reason(o))
    else None
  }

  lemma ReasonHasNoNewline(o: Outcome)
    requires IsFailure(o)
    requires (o.NotInBundle? || o.NotOnDisk?) ==> '\n' !in o.resS
    requires o.DecodeFailed? ==> '\n' !in o.format
    ensures '\n' !in Reason(o)
  {
    match o
    case NotInBundle(n) =>
      assert '\n' !in ResSLead;
      assert '\n' !in " was not found in bundle";
    case NotOnDisk(n) =>
      assert '\n' !in ResSLead;
      assert '\n' !in " was not found on disk";
    case DecodeFailed(_, f) =>
      assert '\n' !in "Failed to decode texture format ";
  }

  /** With collaborators that never produce a line break, an error line holds none. */
  lemma ErrorLineHasNoNewline(host: Host, a: Asset, dest: string)
    requires '\n' !in host.fileName(a.memberPath)
    requires '\n' !in host.fileName(a.texture.streamPath)
    requires '\n' !in host.formatName(a.texture.format)
    ensures var l := ErrorLine(host, a, ClassifyItem(host, a, dest)); l.Some? ==> '\n' !in l.value
  {
    var o := ClassifyItem(host, a, dest);
    if IsFailure(o) {
      Text.ShowIntNoNewline(a.pathId);
      assert '\n' !in LinePrefix(host, a);
      ReasonHasNoNewline(o);
    }
  }

  // ---------------------------------------------------------------------------
  // Output naming

  /** `{sanitized name}-{member file name}-{path id}`: the single-export suggestion and
      the batch file name without its extension. */
  function Stem(host: Host, a: Asset): string {
    NamePrefix(host, a) + Text.ShowInt(a.pathId)
  }

  /** A stem starts with the sanitized texture name and a dash, carries the member's file
      name between dashes, and ends with the rendered path id. */
  lemma StemParts(host: Host, a: Asset)
    ensures var r, n, m, id := Stem(host, a), host.sanitize(a.texture.name), host.fileName(a.memberPath), Text.ShowInt(a.pathId);
      && |r| == |n| + 1 + |m| + 1 + |id|
      && n + "-" <= r
      && r[|n| + 1..|n| + 1 + |m|] == m
      && r[|n| + 1 + |m|] == '-'
      && |id| < |r| && r[|r| - |id|..] == id
  {
  }

  /** The batch file name: the stem, a dot, and the chosen file type lower-cased. */
  function BatchFileName(host: Host, a: Asset, fileType: string): string {
    Stem(host, a) + "." + Text.ToLower(fileType)
  }

  /** A batch file name splits into the stem, a dot and the lower-cased file type, so
      it carries no upper-case ASCII letter after the stem. */
  lemma BatchFileNameParts(host: Host, a: Asset, fileType: string)
    ensures var r := BatchFileName(host, a, fileType);
      && Stem(host, a) + "." <= r
      && r[|Stem(host, a)| + 1..] == Text.ToLower(fileType)
      && forall i :: |Stem(host, a)| < i < |r| ==> !Text.IsAsciiUpper(r[i])
  {
  }

  /** Where batch export writes `a`: the file name combined with the chosen folder. */
  function BatchPath(host: Host, dir: string, fileType: string, a: Asset): string {
    host.combine(dir, BatchFileName(host, a, fileType))
  }

  /** No directory separator and no drive colon: Path.Combine cannot take the name for
      a rooted path and drop the folder in front of it. */
  predicate NoRoot(s: string) {
    '/' !in s && '\\' !in s && ':' !in s
  }

  /** A batch file name built from rootless parts is rootless: the path id renders as
      a sign and digits, and lower-casing never yields a separator or a colon. */
  lemma BatchFileNameNoRoot(host: Host, a: Asset, fileType: string)
    requires NoRoot(host.sanitize(a.texture.name))
    requires NoRoot(host.fileName(a.memberPath))
    requires NoRoot(fileType)
    ensures NoRoot(BatchFileName(host, a, fileType))
  {
    Text.ShowIntSignAndDigits(a.pathId);
    var id, ext := Text.ShowInt(a.pathId), Text.ToLower(fileType);
    assert NoRoot(id) by {
      forall i | 0 <= i < |id| ensures id[i] != '/' && id[i] != '\\' && id[i] != ':' {
      }
    }
    assert NoRoot(ext) by {
      forall i | 0 <= i < |ext| ensures ext[i] != '/' && ext[i] != '\\' && ext[i] != ':' {
        assert ext[i] == fileType[i] || ext[i] as int >= 97;
      }
    }
    BatchFileNameShape(host, a, fileType);
  }

  /** Within one folder, two textures with the same sanitized name in the same member
      file but with different path ids are written to different paths, provided the
      folder keeps different rootless names apart and the name parts are rootless, as
      ReplaceInvalidPathChars and GetFileName make them. */
  lemma BatchPathsDistinct(host: Host, dir: string, fileType: string, a: Asset, b: Asset)
    requires forall x, y :: x != y && NoRoot(x) && NoRoot(y) ==> host.combine(dir, x) != host.combine(dir, y)
    requires NoRoot(host.sanitize(a.texture.name)) && NoRoot(host.fileName(a.memberPath))
    requires NoRoot(fileType)
    requires host.sanitize(a.texture.name) == host.sanitize(b.texture.name)
    requires host.fileName(a.memberPath) == host.fileName(b.memberPath)
    requires a.pathId != b.pathId
    ensures BatchPath(host, dir, fileType, a) != BatchPath(host, dir, fileType, b)
  {
    BatchFileNamesDistinct(host, a, b, fileType);
    BatchFileNameNoRoot(host, a, fileType);
    BatchFileNameNoRoot(host, b, fileType);
  }

  /** The text of a batch file name before the path id. */
  function NamePrefix(host: Host, a: Asset): string {
    host.sanitize(a.texture.name) + "-" + host.fileName(a.memberPath) + "-"
  }

  lemma BatchFileNameShape(host: Host, a: Asset, fileType: string)
    ensures BatchFileName(host, a, fileType) == NamePrefix(host, a) + Text.ShowInt(a.pathId) + ("." + Text.ToLower(fileType))
  {
  }

  /** Two textures with the same sanitized name in the same member file but with
      different path ids never get the same batch file name. */
  lemma BatchFileNamesDistinct(host: Host, a: Asset, b: Asset, fileType: string)
    requires host.sanitize(a.texture.name) == host.sanitize(b.texture.name)
    requires host.fileName(a.memberPath) == host.fileName(b.memberPath)
    requires a.pathId != b.pathId
    ensures BatchFileName(host, a, fileType) != BatchFileName(host, b, fileType)
  {
    BatchFileNameShape(host, a, fileType);
    BatchFileNameShape(host, b, fileType);
    Text.ShowIntInjective(a.pathId, b.pathId);
    Text.MiddleDiffers(NamePrefix(host, a), Text.ShowInt(a.pathId), Text.ShowInt(b.pathId), "." + Text.ToLower(fileType));
  }
}

=== FILE: wrappers.dfy ===
/** A value that may be absent: the model's stand-in for a C# null reference
    and for a dialog that the user dismissed. */
module Wrappers {

  datatype Option<+T> = None | Some(value: T)

  /** The zero- or one-element sequence holding the value of `o`, if any. */
  function AsSeq<T>(o: Option<T>): (s: seq<T>)
    ensures |s| <= 1
    ensures |s| == 1 <==> o.Some?
    ensures o.Some? ==> s[0] == o.value
  {
    match o
    case None => []
    case Some(v) => [v]
  }
}
